=== FILE: README.md ===
# php-process: the process-handle state machine

This project models the core of the `deit\process` PHP library in Dafny: the `Process` class
and the Windows `ProcessInputStream`. A `Process` holds four fields:
- the `proc_open` resource;
- the raw pipe array;
- the stream wrappers, built lazily per pipe;
- the exit code.

The model keeps them in one immutable record, `ProcessState.Handle`. Each method of the class
that runs on an existing object is a pure function that takes a handle and returns the new
handle together with its result:
- The status-reading methods, the guards, terminate/kill, destroy, wait and `__destruct`
  return a `Step`. A `Step` holds the value returned (or the `ProcessException` thrown), the
  new handle, the status answers not yet consumed and the trace of calls made into PHP's
  process and file functions.
- The stream getters return a `Got`, the wrapper or the exception with the new handle. They
  make no OS call.

`spawn` (with the constructor) and `exec` take no handle. They return a `Spawned` and an
`ExecRun`, which carry the handle they build. `signal()` is an empty stub and is not
modelled.

The operating system is an oracle:
- `proc_get_status` answers come from a sequence, one per query on a live resource. Once the
  sequence is exhausted, the query fails (`false`).
- The outcome of `proc_open` is a boolean parameter.
- The outcome of `proc_terminate` is a boolean parameter.
- The code `proc_close` reports is an integer parameter.
- The clock of a timed `wait` is a start reading plus the readings taken before each round, in
  integer microseconds.

The `$process` field has three states:
- `NoProcess` is `false`.
- `Live` is an open resource.
- `Released` is a resource that `proc_close` has already freed but the field never reset. This
  happens when `destroy` throws at `Process.php:401`, before its reset at lines 412-414.

The model follows the code as written, and three lemmas show where the code does less than a
reader might expect:
- `Spawning.PtyRequestReachesProcOpen`: the constructor's PTY check reads `$opt`, a variable it
  never assigns (`Process.php:131`). A pty request on a host that is neither Linux nor Windows
  is therefore passed to `proc_open` rather than refused.
- `ProcessLemmas.DestructAfterFailedDestroy`: `destroy` throws before the reset, so it can leave
  the handle `Released` with its pipes and wrappers still stored. A later release queries the
  status and calls `proc_close` again on that resource.
- `ProcessLemmas.WaitReleasesAgain`: `wait` does not guard a second release. After a completed
  `destroy` it calls `proc_close(false)` again (`Process.php:319-320`). Only `__destruct`
  checks the field first (`Process.php:458`), which `ProcessLemmas.DestructGuardsRelease`
  shows.

In five further places the code does less than a process manager is commonly expected to.
This model follows the code:
- A status reading that reports a stopped process with a code other than -1 overwrites any
  stored exit code (`Process.php:364-366`). It does not store the code only when none is
  stored yet.
- `destroy` does not reset the handle when it throws (`Process.php:400-414`).
- `__destruct` does not swallow errors: a failed `kill` or `destroy` propagates
  (`Process.php:457-464`).
- `exec` spawns the process before it validates the redirects, and it accepts only stream
  objects, not callbacks (`Process.php:44-65`). A refused redirect throws while the object is
  held in a local. That object's destructor then kills the process if it is still running
  and releases it. The error redirect is read from the key `stderror`.
- `exec` returns the stored exit code. That code can be `null` when neither a status reading
  nor `proc_close` supplied one (`Process.php:67-69`).

Files:
- `wrappers.dfy`: `Option` and `Result`.
- `process_state.dfy`: the handle record, the OS vocabulary, the exceptions and the shape
  every reachable handle keeps (`Valid`).
- `process.dfy`: status, the guards, the getters, terminate/kill, destroy, wait and
  `__destruct`.
- `spawning.dfy`: the constructor (descriptor spec, PTY check, `proc_open`).
- `exec.dfy`: `Process::exec`.
- `process_input_stream.dfy`: `ProcessInputStream`.
- `process_lemmas.dfy`: properties that relate several calls.

## Model

| member | source | states |
|---|---|---|
| `ProcessState.Find` | src/deit/process/Process.php:226 | Finds the wrapper stored for a pipe, or reports exactly when no wrapper for that pipe exists. |
| `Process.QueryStatus` | src/deit/process/Process.php:353-373 | Fails without touching the OS when there is no resource. On a live resource, consumes one answer and returns it. The stored exit code changes only when the answer reports a stopped process with a code other than -1, and it then becomes that code. |
| `Process.IsRunning` | src/deit/process/Process.php:191-204 | True exactly when the resource is live and the status answer reports it running. It makes no OS call without a resource, and a running answer leaves the handle unchanged. |
| `Process.GetId` | src/deit/process/Process.php:210-218 | Returns the pid exactly when the resource is live and the query succeeds; otherwise nothing (`false`). |
| `Process.AssertIsOpen` | src/deit/process/Process.php:421-425 | Throws "has exited" exactly when the field is `false`. The message's id is then absent and nothing else changes. |
| `Process.AssertIsNotOpen` | src/deit/process/Process.php:430-434 | Throws "still open" exactly when the field is not `false`. The message carries getId()'s answer. |
| `Process.AssertIsRunning` | src/deit/process/Process.php:439-443 | Passes exactly when a status query reports the process running, and then leaves the handle unchanged. Otherwise it throws "no longer running". |
| `Process.AssertIsNotRunning` | src/deit/process/Process.php:448-452 | Throws "still running" exactly when a status query reports the process running. |
| `Process.GetStream` | src/deit/process/Process.php:224-254 | Throws exactly when the handle is `false`. A wrapper already built for the pipe is returned as is. Otherwise one new open wrapper of the pipe's kind is appended with a fresh identity. Wrappers for other pipes and every other field are unaffected. |
| `Process.FindAppend` | src/deit/process/Process.php:226-228 | After a wrapper is added, a lookup finds the earlier wrapper for a pipe if one exists, else the new one. |
| `Process.GetExitCode` | src/deit/process/Process.php:261-264 | Throws exactly when the process is reported running. Otherwise returns the stored code. That is the reported code when a live process's reading reports an exit, and the code stored before the call in every other case, including a freed resource whose status query fails. |
| `Process.Terminate` | src/deit/process/Process.php:280-291 | Only the status query happens when the process is not running. Otherwise proc_terminate is called with SIGTERM right after it. A delivered signal ends the call there: one answer is consumed and the handle, including its exit code, is unchanged. The call throws exactly when the process is running and the signal is not delivered. It then makes one more status query for the message's id and nothing else. |
| `Process.Kill` | src/deit/process/Process.php:298-309 | As terminate, but the signal is SIGKILL and the error is "unable to kill". |
| `Process.CloseStreams` | src/deit/process/Process.php:383-387 | Every wrapper comes back closed, in the same order. The calls are exactly one close per wrapper that was open: every open wrapper is closed, every close is of an open wrapper, and there are as many closes as open wrappers. |
| `Process.ClosePipes` | src/deit/process/Process.php:389-393 | Every visited pipe comes back closed, and unvisited ones are unchanged. Each open pipe visited is fclosed, only open pipes are fclosed, and none twice. Nothing is fclosed when no pipe was open. |
| `Process.CloseAll` | src/deit/process/Process.php:383-393 | The two loops leave every wrapper and every pipe closed and change no other field. Every open wrapper and every open pipe is closed, and no call is made when nothing was open. |
| `Process.CloseAllStreamCalls` | src/deit/process/Process.php:383-387 | The first loop closes only wrappers that were open, one close per open wrapper. |
| `Process.CloseAllPipeCalls` | src/deit/process/Process.php:389-393 | The second loop fcloses only pipes that were open, and no pipe twice. |
| `Process.ReleaseOrderedParts` | src/deit/process/Process.php:383-398 | Wrapper closes, then pipe closes, then calls that close neither, form a release-ordered trace. |
| `Process.Reap` | src/deit/process/Process.php:397-414 | Throws exactly when the resource was live, looked running and proc_close answered -1. It then leaves the resource released but not reset. Otherwise it resets the handle, pipes and wrappers. A code from the status reading is kept. proc_close's code is adopted only when none is stored and it is not -1. |
| `Process.Destroy` | src/deit/process/Process.php:379-416 | Throws "unable to terminate" exactly when the process was live, reported running and proc_close answered -1. On success no resource, pipe or wrapper remains. On the error the closed wrappers and pipes stay stored on a released resource. |
| `Process.ReapCalls` | src/deit/process/Process.php:397-398 | The tail of destroy calls proc_close on the resource it holds and closes no wrapper or pipe. |
| `Process.DestroyReleaseOrder` | src/deit/process/Process.php:383-398 | destroy closes every open wrapper and every open pipe and calls proc_close. All wrapper closes come before all pipe closes, and both come before proc_close. |
| `Process.DestroyExitCode` | src/deit/process/Process.php:406-408 | A code stored by destroy's own status reading is never replaced. proc_close's code is adopted on success when none is stored and it is not -1. A code appears from nowhere else. |
| `Process.Admitted` | src/deit/process/Process.php:331 | Counts the rounds whose clock reading falls before the deadline. The next reading, if any, is past it. |
| `Process.AllRunningStep` | src/deit/process/Process.php:335 | Seeing the process running in one more round is the same as seeing it in the first round and in every round after it. |
| `Process.Poll` | src/deit/process/Process.php:331-340 | If every admitted round sees the process running, the handle is unchanged and exactly one status query is made per round. Otherwise the loop releases the live resource. That release throws only when proc_close gave −1, leaving a freed resource, and on success it resets the handle. |
| `Process.Wait` | src/deit/process/Process.php:316-345 | Not running, or no timeout: releases at once. This throws exactly when destroy does (live, reported running by destroy's own query, and proc_close gave −1), and success resets the handle. With a timeout: the handle is left untouched when the deadline passes with every poll seeing it running, with no proc_close. Otherwise it is released, and success resets the handle. On either branch an error needs proc_close to have given −1, and it leaves a freed resource. Its only error is destroy's "unable to terminate". |
| `Process.Destruct` | src/deit/process/Process.php:457-464 | Does nothing when the field is `false`. Otherwise it first queries the status. A process not reported running is released with proc_close. One reported running is killed (SIGKILL) and then destroyed. Unless a kill fails, proc_close is always called on the held resource. A failed kill throws and leaves the resource live. It throws only on a live resource, either from a failed kill or from destroy after proc_close gave −1. Success always ends with no resource. |
| `ProcessState.PipeOrderComplete` | src/deit/process/Process.php:21-23 | The pipe-array order lists all three standard streams, each exactly once. |
| `Spawning.DescriptorSpec` | src/deit/process/Process.php:139-167 | Windows gets a stdin pipe and two temporary files. Elsewhere it is three ptys exactly when a pty is asked for, else pipes r/w/w. Stdin is always readable by the child, and stdout and stderr are writable. |
| `Spawning.EndpointsOf` | src/deit/process/Process.php:171-180 | The pipe array after spawning holds the three descriptors of the spec, all open. |
| `Spawning.Spawn` | src/deit/process/Process.php:102-185 | Always calls proc_open once, with the spec chosen from the platform and the pty option, and with the cwd and env options. It fails exactly when proc_open fails. Otherwise it yields a live handle with no wrappers and no exit code. |
| `Spawning.PtyRequestReachesProcOpen` | src/deit/process/Process.php:131-133 | A pty request on a host that is neither Linux nor Windows is not refused: proc_open receives three ptys. |
| `Exec.Attach` | src/deit/process/Process.php:46-65 | An unset redirect is skipped. A set one of the wrong kind raises that redirect's error, and one of the right kind fetches the pipe's wrapper: afterwards that pipe has a wrapper, and every other pipe's wrapper is as before. |
| `Exec.Exec` | src/deit/process/Process.php:43-65 | Once the process is spawned, exec raises each redirect error exactly when that redirect is set to something it refuses and the redirects checked before it passed. The keys are `stdin`, `stdout` and `stderror`, in that order. |
| `Exec.AttachAll` | src/deit/process/Process.php:46-65 | The first refused redirect raises its error, in the order stdin, stdout, stderror. The object stays live. |
| `Exec.Unwind` | src/deit/process/Process.php:457-464 | An exception leaving exec keeps its error while the object's destructor runs. The destructor queries the status, kills a process still running, and releases one that is not. |
| `Exec.UnwindAfterSpawn` | src/deit/process/Process.php:44-65 | After proc_open, a refused redirect leads to a status query. Then comes a proc_close of the live resource, or a SIGKILL when the process is still running. |
| `Exec.Finish` | src/deit/process/Process.php:67-69 | wait without a timeout, then the exit code: a live process is always proc_closed. A returned code is the stored code of a handle with no resource. The only error is "unable to terminate". |
| `Exec.Run` | src/deit/process/Process.php:43-70 | proc_open comes first whenever it succeeds. Each redirect error is raised exactly when its redirect is refused after the earlier ones passed. The calls after proc_open are then those of the destructor run on the object. When all three redirects are accepted, exec waits: the live process is proc_closed, and the only error is "unable to terminate". A returned code is the stored code of a handle with no resource. |
| `Exec.StderrKeyIgnored` | src/deit/process/Process.php:60-65 | The key `stderr` has no effect on exec; only `stderror` is read. |
| `Exec.CallbackRedirectRefusedAfterSpawn` | src/deit/process/Process.php:44-58 | A callback for stdout is refused after proc_open has run. The destructor then queries the process, releases it when it is not running and kills it when it still is. |
| `ProcessInput.Construct` | src/deit/process/ProcessInputStream.php:31-34 | The raw stream is held only inside the rewind-before-read decorator, installed at construction. |
| `ProcessInput.End` | src/deit/process/ProcessInputStream.php:39-41 | True exactly when the decorator is at its end and the owner is not running. It is false without a status query when the decorator is not at its end, and false whenever the owner is reported running. |
| `ProcessInput.Read` | src/deit/process/ProcessInputStream.php:46-48 | Returns exactly the decorator's bytes and keeps the decorator's new state, with no buffer of its own. |
| `ProcessInput.EndAsksEachTime` | src/deit/process/ProcessInputStream.php:39-41 | end() is not cached: two calls consume two status answers, and each result follows its own answer. |
| `ProcessLemmas.SpawnValid` | src/deit/process/Process.php:171-183 | A spawned handle has the reachable shape. |
| `ProcessLemmas.StatusValid` | src/deit/process/Process.php:191-218 | status, isRunning and getId keep the shape. |
| `ProcessLemmas.GetStreamValid` | src/deit/process/Process.php:224-254 | A getter keeps the shape: at most one wrapper per pipe, identities increasing. The wrapper has its pipe's kind. |
| `ProcessLemmas.SignalValid` | src/deit/process/Process.php:280-309 | terminate and kill keep the shape. |
| `ProcessLemmas.ReleasedValid` | src/deit/process/Process.php:383-401 | Closing everything and leaving the resource released keeps the shape. |
| `ProcessLemmas.DestroyValid` | src/deit/process/Process.php:379-416 | destroy keeps the shape, whether it completes or throws. |
| `ProcessLemmas.PollValid` | src/deit/process/Process.php:331-340 | The polling loop keeps the shape. |
| `ProcessLemmas.WaitValid` | src/deit/process/Process.php:316-345 | wait keeps the shape. |
| `ProcessLemmas.DestructValid` | src/deit/process/Process.php:457-464 | The destructor keeps the shape. |
| `ProcessLemmas.StreamMemoised` | src/deit/process/Process.php:226-229 | A second getter call returns the same wrapper object and changes nothing. |
| `ProcessLemmas.ReleasedHandleRejectsUse` | src/deit/process/Process.php:412-414 | After a completed destroy, isRunning is false and getId has no answer. Every getter throws, and getExitCode returns the stored code without an OS call. |
| `ProcessLemmas.ReadingSurvivesRelease` | src/deit/process/Process.php:364-366 | A code read from a status answer during destroy is what getExitCode reports afterwards. |
| `ProcessLemmas.DestroyOnClosed` | src/deit/process/Process.php:383-393 | destroy closes no wrapper or pipe when all are already closed. |
| `ProcessLemmas.NoDoubleClose` | src/deit/process/Process.php:383-393 | A second destroy closes no wrapper or pipe again, whether the first completed or threw. |
| `ProcessLemmas.WaitReleasesAgain` | src/deit/process/Process.php:319-320 | After a completed destroy, wait calls proc_close again on `false`. |
| `ProcessLemmas.DestructGuardsRelease` | src/deit/process/Process.php:458 | After a completed destroy, the destructor makes no call at all. |
| `ProcessLemmas.DestroyReleased` | src/deit/process/Process.php:397-414 | On a released resource with everything closed, destroy only queries and calls proc_close, then resets and keeps the stored code. |
| `ProcessLemmas.FailedDestroyLeaves` | src/deit/process/Process.php:383-402 | A destroy that throws leaves a released resource with every wrapper and pipe closed, and the code unchanged. |
| `ProcessLemmas.DestructReleased` | src/deit/process/Process.php:457-464 | On a released resource the destructor's status query fails, so it goes straight to destroy. |
| `ProcessLemmas.DestructAfterFailedDestroy` | src/deit/process/Process.php:400-414 | When destroy throws, the resource is left released. The destructor then makes two failed queries and a second proc_close, finishes the reset and keeps the stored code. |
| `Process.PollPeriod` | src/deit/process/Process.php:329 | The sleep between polls is positive and never longer than the timeout; for a timeout of one second or more it is 100 000 µs. |
| `ProcessLemmas.TicksGrow` | src/deit/process/Process.php:331-333 | With readings spaced by the sleep, the i-th reading is at least i sleeps after the start. |
| `ProcessLemmas.AdmittedBound` | src/deit/process/Process.php:329-333 | With clock readings spaced by wait's sleep, the loop runs fewer than timeout/period + 1 rounds before the deadline, so at most one poll per 100 ms for timeouts of a second or more. |
| `ProcessLemmas.SubSecondWaitPollsOnce` | src/deit/process/Process.php:329-333 | A timeout under one second polls at most once. |

## Left out

- Real OS calls: `proc_open`, `proc_get_status`, `proc_terminate` and `proc_close` are oracle inputs, and `fclose` and the wrappers' `close()` are trace entries.
- Process.DestroyReleaseOrder: assumes that a wrapper's `close()` does not free the raw pipe it wraps. The wrappers are built with a second argument `false` (`Process.php:227`, `239`, `251`), whose meaning lies in the stream library. If `close()` did free the pipe, `is_resource` at `Process.php:390` would be false for it and no `fclose` would follow. The statement "every open pipe is fclosed" then holds only for pipes without a wrapper.
- The Windows temporary files: `tmpfile()` and the `fseek` rewinds (`Process.php:143-144`, `178-183`) are I/O. The model stores the descriptor only, and does not model the temporary files leaked when `proc_open` fails.
- The stream library: `StreamUtil::copy`, `PhpInputStream`, `PhpOutputStream` and `RewindBeforeReadInputStream` are not part of this model. `exec` is modelled without its byte copying. The decorator's `end()` and `read()` are function parameters.
- `microtime` and `usleep`: a timed wait takes its clock readings as a parameter, in integer microseconds. The float arithmetic of the period is not modelled, and the sleep itself is not an event.
- `signal()`: an empty stub that returns the object (`Process.php:271-273`).
- The exit-code constants `EXIT_SUCCESS` and `EXIT_FAILURE`: unused by the code.
- PHP's behaviour on a freed or `false` resource: `proc_get_status` is taken to fail there without an answer, and `proc_close` to yield no integer. The PHP 8 `TypeError` is not modelled. After a reset, `$this->pipes` and `$this->streams` are `null` (`Process.php:413-414`). A second destroy therefore warns at the two `foreach` loops (`Process.php:383`, `389`), and the model treats both as empty.
- `false` versus `null`: `getId()` returning `false` and an exit code that is `null` are both the absent value. When `proc_close` on a freed or `false` resource returns `false` and no code is stored, `Process.php:406-407` stores `false` as the exit code. The model keeps the code absent.
- Errors raised inside a destructor are returned like any other error. How PHP propagates them out of garbage collection is not modelled.
- Exec.Run: assumes that `StreamUtil::copy` only reads and writes through the wrappers: it leaves them open and the object's fields unchanged. The copy routine lies in the stream library. If it closed a wrapper, the `isClosed()` test at `Process.php:384` would skip that wrapper's close, and the destructor's calls after a refused redirect would contain one `CloseStream` fewer than stated.
- Exec.Run: when the destructor that runs as an exception leaves exec throws too, the model reports exec's own exception. PHP would raise the destructor's exception with exec's as its previous one.
- The tests and the bootstrap script: they run real commands.
- `Process.Wait`: does not state which exit code results when the timed loop releases the process; `Process.Destroy` and `Process.DestroyExitCode` state it for the release itself.

=== FILE: exec.dfy ===
/** Process::exec: spawn, then check and attach each redirect, wait without a timeout and
    return the exit code. The byte copying (StreamUtil::copy) is not part of this model;
    it is assumed to read and write through the wrappers only, leaving them open and the
    object's fields unchanged. */
module Exec {
  import opened Wrappers
  import opened ProcessState
  import opened Process
  import opened Spawning

  /** The value stored under a redirect key; `Unset` is a missing key or a null value. */
  datatype Redirect = Unset | InputStreamArg | OutputStreamArg | CallbackArg | OtherArg

  function Lookup(redirects: map<string, Redirect>, key: string): Redirect {
    if key in redirects then redirects[key] else Unset
  }

  /** The outcome of exec: the exit code or the exception, the object if one was built (as
      it is left for its destructor), the unconsumed status answers and the calls made. */
  datatype ExecRun = ExecRun(out: Result<Option<int>, Error>, h: Option<Handle>, rest: seq<StatusReply>, calls: seq<OsCall>)

  /** Attach one redirect: an unset key is skipped; a set key must hold a value of the
      expected kind, else `invalid` is raised; otherwise the wrapper for `p` is fetched. */
  function Attach(h: Handle, v: Redirect, expected: Redirect, invalid: Error, p: Pipe)
    : (r: Result<Handle, Error>)
    requires h.proc == Live
    ensures r.Err? <==> v != Unset && v != expected
    ensures r.Err? ==> r.error == invalid
    ensures v == Unset ==> r == Ok(h)
    ensures r.Ok? ==> r.value.proc == Live && r.value.exitCode == h.exitCode
    ensures r.Ok? && v != Unset ==>
      && Find(r.value.streams, p).Some?
      && forall q :: q != p ==> Find(r.value.streams, q) == Find(h.streams, q)
  {
    if v == Unset then Ok(h)
    else if v != expected then Err(invalid)
    else Ok(GetStream(h, p).h)
  }

  /** A redirect value `v` is accepted for a key whose expected kind is `expected`. */
  predicate Accepted(v: Redirect, expected: Redirect) {
    v == Unset || v == expected
  }

  /** exec(command, options): the redirects are read from the `stdin`, `stdout` and
      `stderror` keys. `delivered` and `closeCode2` are the OS's answers to the destructor
      that runs when an exception leaves exec. */
  function Exec(command: string, options: Options, redirects: map<string, Redirect>, platform: Platform,
                launched: bool, replies: seq<StatusReply>, closeCode: int, delivered: bool, closeCode2: int)
    : (e: ExecRun)
    ensures e.out == Err(InvalidInputRedirect) <==>
      launched && !Accepted(Lookup(redirects, "stdin"), InputStreamArg)
    ensures e.out == Err(InvalidOutputRedirect) <==>
      launched && Accepted(Lookup(redirects, "stdin"), InputStreamArg)
      && !Accepted(Lookup(redirects, "stdout"), OutputStreamArg)
    ensures e.out == Err(InvalidErrorRedirect) <==>
      launched && Accepted(Lookup(redirects, "stdin"), InputStreamArg)
      && Accepted(Lookup(redirects, "stdout"), OutputStreamArg)
      && !Accepted(Lookup(redirects, "stderror"), OutputStreamArg)
  {
    Run(command, options, Lookup(redirects, "stdin"), Lookup(redirects, "stdout"),
        Lookup(redirects, "stderror"), platform, launched, replies, closeCode, delivered, closeCode2)
  }

  /** An exception leaving exec once the object exists: the local holding it is freed, so
      its destructor runs (status query, kill when running, destroy) before the caller
      sees the exception, which stays exec's own. */
  function Unwind(err: Error, h: Handle, replies: seq<StatusReply>, delivered: bool, closeCode: int): (e: ExecRun)
    ensures e.out == Err(err) && e.h.Some?
    ensures h.proc != NoProcess ==> |e.calls| > 0 && e.calls[0] == GetStatus
    ensures h.proc == Live && !ReportsRunning(Next(replies)) ==> CloseProcess(Live) in e.calls
    ensures h.proc == Live && ReportsRunning(Next(replies)) && ReportsRunning(Next(Rest(replies))) ==>
      Signal(SigKill) in e.calls
    ensures h.proc == NoProcess ==> e == ExecRun(Err(err), Some(h), replies, [])
  {
    var d := Destruct(h, replies, delivered, closeCode);
    ExecRun(Err(err), Some(d.h), d.rest, d.calls)
  }

  /** Prepends calls made earlier in exec to a run's trace. */
  function Following(calls: seq<OsCall>, e: ExecRun): (r: ExecRun)
    ensures r.out == e.out && r.h == e.h && r.rest == e.rest
    ensures r.calls == calls + e.calls
  {
    e.(calls := calls + e.calls)
  }

  /** The outcome of the redirect checks: the first error raised, if any, and the object
      with the wrappers fetched so far. */
  datatype Attached = Attached(error: Option<Error>, h: Handle)

  /** The three redirect checks of exec, in order, on the live object: the first
      redirect refused raises its error. */
  function AttachAll(h: Handle, stdin: Redirect, stdout: Redirect, stderror: Redirect): (r: Attached)
    requires h.proc == Live
    ensures r.error == Some(InvalidInputRedirect) <==> !Accepted(stdin, InputStreamArg)
    ensures r.error == Some(InvalidOutputRedirect) <==>
      Accepted(stdin, InputStreamArg) && !Accepted(stdout, OutputStreamArg)
    ensures r.error == Some(InvalidErrorRedirect) <==>
      Accepted(stdin, InputStreamArg) && Accepted(stdout, OutputStreamArg) && !Accepted(stderror, OutputStreamArg)
    ensures r.error.Some? ==> r.error.value in {InvalidInputRedirect, InvalidOutputRedirect, InvalidErrorRedirect}
    ensures r.h.proc == Live
  {
    var afterIn := Attach(h, stdin, InputStreamArg, InvalidInputRedirect, Stdin);
    if afterIn.Err? then Attached(Some(afterIn.error), h)
    else
      var afterOut := Attach(afterIn.value, stdout, OutputStreamArg, InvalidOutputRedirect, Stdout);
      if afterOut.Err? then Attached(Some(afterOut.error), afterIn.value)
      else
        var afterErr := Attach(afterOut.value, stderror, OutputStreamArg, InvalidErrorRedirect, Stderr);
        if afterErr.Err? then Attached(Some(afterErr.error), afterOut.value)
        else Attached(None, afterErr.value)
  }

  /** The end of exec on the live object: wait without a timeout, then read the exit code. */
  function Finish(h: Handle, replies: seq<StatusReply>, closeCode: int, delivered: bool, closeCode2: int): (e: ExecRun)
    ensures e.h.Some?
    ensures e.out.Ok? ==> e.h.value.proc == NoProcess && e.out.value == e.h.value.exitCode
    ensures e.out.Err? ==> e.out.error.UnableToTerminate?
    ensures h.proc == Live ==> CloseProcess(Live) in e.calls
  {
    var waited := Wait(h, replies, None, Clock(0, []), closeCode);
    if waited.value.Err? then Following(waited.calls, Unwind(waited.value.error, waited.h, waited.rest, delivered, closeCode2))
    else
      // The handle is `false` now, so the destructor that runs as exec returns does nothing.
      var code := GetExitCode(waited.h, waited.rest);
      ExecRun(code.value, Some(code.h), code.rest, waited.calls + code.calls)
  }

  /** exec once its three redirect keys have been read. */
  function Run(command: string, options: Options, stdin: Redirect, stdout: Redirect, stderror: Redirect,
               platform: Platform, launched: bool, replies: seq<StatusReply>, closeCode: int,
               delivered: bool, closeCode2: int): (e: ExecRun)
    ensures !launched ==> e == ExecRun(Err(SpawnFailed), None, replies, Spawn(command, options, platform, launched).calls)
    ensures launched ==> e.h.Some? && |e.calls| > 0 && e.calls[0] == Spawn(command, options, platform, launched).calls[0]
    ensures e.out.Ok? ==> e.h.Some? && e.h.value.proc == NoProcess && e.out.value == e.h.value.exitCode
    ensures e.out == Err(InvalidInputRedirect) <==> launched && !Accepted(stdin, InputStreamArg)
    ensures e.out == Err(InvalidOutputRedirect) <==>
      launched && Accepted(stdin, InputStreamArg) && !Accepted(stdout, OutputStreamArg)
    ensures e.out == Err(InvalidErrorRedirect) <==>
      launched && Accepted(stdin, InputStreamArg) && Accepted(stdout, OutputStreamArg)
      && !Accepted(stderror, OutputStreamArg)
    ensures e.out.Err? && e.out.error in {InvalidInputRedirect, InvalidOutputRedirect, InvalidErrorRedirect} ==>
      launched && e.calls == Spawn(command, options, platform, launched).calls
                             + Unwind(e.out.error, AttachAll(Spawn(command, options, platform, launched).out.value,
                                                             stdin, stdout, stderror).h,
                                      replies, delivered, closeCode2).calls
    ensures launched && Accepted(stdin, InputStreamArg) && Accepted(stdout, OutputStreamArg)
            && Accepted(stderror, OutputStreamArg) ==>
      CloseProcess(Live) in e.calls && (e.out.Err? ==> e.out.error.UnableToTerminate?)
  {
    var spawned := Spawn(command, options, platform, launched);
    if spawned.out.Err? then ExecRun(Err(spawned.out.error), None, replies, spawned.calls)
    else
      var attached := AttachAll(spawned.out.value, stdin, stdout, stderror);
      var rest :=
        if attached.error.Some? then Unwind(attached.error.value, attached.h, replies, delivered, closeCode2)
        else Finish(attached.h, replies, closeCode, delivered, closeCode2);
      Following(spawned.calls, rest)
  }

  /** The error stream is only redirected from the key "stderror": a "stderr" entry, as
      the repository's test passes, changes nothing. */
  lemma StderrKeyIgnored(command: string, options: Options, redirects: map<string, Redirect>, platform: Platform,
                         launched: bool, replies: seq<StatusReply>, closeCode: int, delivered: bool, closeCode2: int)
    ensures Exec(command, options, redirects, platform, launched, replies, closeCode, delivered, closeCode2)
         == Exec(command, options, redirects - {"stderr"}, platform, launched, replies, closeCode, delivered, closeCode2)
  {
    var r := redirects - {"stderr"};
    assert Lookup(r, "stdin") == Lookup(redirects, "stdin");
    assert Lookup(r, "stdout") == Lookup(redirects, "stdout");
    assert Lookup(r, "stderror") == Lookup(redirects, "stderror");
  }

  /** An exception right after spawning does not leave the process behind: the
      destructor queries the process, kills it when it is still running and releases it
      when it is not. */
  lemma UnwindAfterSpawn(spawnCalls: seq<OsCall>, err: Error, h: Handle, replies: seq<StatusReply>,
                         delivered: bool, closeCode: int)
    requires h.proc == Live && |spawnCalls| == 1
    ensures var calls := spawnCalls + Unwind(err, h, replies, delivered, closeCode).calls;
      && |calls| > 1 && calls[0] == spawnCalls[0] && calls[1] == GetStatus
      && (!ReportsRunning(Next(replies)) ==> CloseProcess(Live) in calls)
      && (ReportsRunning(Next(replies)) && ReportsRunning(Next(Rest(replies))) ==> Signal(SigKill) in calls)
  {
    var u := Unwind(err, h, replies, delivered, closeCode).calls;
    assert forall c :: c in u ==> c in spawnCalls + u;
  }

  /** A per-chunk callback for stdout, as the repository's script passes, is refused --
      after the process has been spawned; the destructor then queries the process and
      releases it when it is not running. */
  lemma CallbackRedirectRefusedAfterSpawn(command: string, options: Options, redirects: map<string, Redirect>,
                                          platform: Platform, replies: seq<StatusReply>, closeCode: int,
                                          delivered: bool, closeCode2: int)
    requires Lookup(redirects, "stdin") == Unset && Lookup(redirects, "stdout") == CallbackArg
    ensures var e := Exec(command, options, redirects, platform, true, replies, closeCode, delivered, closeCode2);
      && e.out == Err(InvalidOutputRedirect)
      && e.calls[0].OpenProcess? && e.calls[1] == GetStatus
      && (!ReportsRunning(Next(replies)) ==> CloseProcess(Live) in e.calls)
      && (ReportsRunning(Next(replies)) && ReportsRunning(Next(Rest(replies))) ==> Signal(SigKill) in e.calls)
  {
    var spawned := Spawn(command, options, platform, true);
    var attached := AttachAll(spawned.out.value, Unset, CallbackArg, Lookup(redirects, "stderror"));
    UnwindAfterSpawn(spawned.calls, InvalidOutputRedirect, attached.h, replies, delivered, closeCode2);
  }
}

=== FILE: process.dfy ===
/** The `Process` handle state machine: status reconciliation, the stream getters, the
    guards, terminate/kill, destroy, wait and the destructor. The OS is an oracle: status
    queries consume a scripted sequence of proc_get_status answers, and the results of
    proc_terminate and proc_close are parameters. */
module Process {
  import opened Wrappers
  import opened ProcessState

  /** The "unknown" exit status proc_get_status and proc_close report. */
  const UnknownExitCode := -1
  /** Signal proc_terminate sends by default (SIGTERM). */
  const SigTerm := 15
  /** Signal `kill` asks proc_terminate to send (SIGKILL). */
  const SigKill := 9

  /** The reading says the process stopped and carries a real exit code. */
  predicate ReportsExit(reply: StatusReply) {
    reply.Status? && !reply.running && reply.exitcode != UnknownExitCode
  }

  /** The reading says the process is still running. */
  predicate ReportsRunning(reply: StatusReply) {
    reply.Status? && reply.running
  }

  /** Prepends calls made before a step to that step's trace. */
  function After<T>(calls: seq<OsCall>, s: Step<T>): (r: Step<T>)
    ensures r.value == s.value && r.h == s.h && r.rest == s.rest
    ensures r.calls == calls + s.calls
  {
    s.(calls := calls + s.calls)
  }

  /** The private status(): one proc_get_status on the handle, storing the exit code when
      the reading reports a stopped process with a code other than -1. */
  function QueryStatus(h: Handle, replies: seq<StatusReply>): (s: Step<StatusReply>)
    ensures h.proc == NoProcess ==> s == Step(QueryFailed, h, replies, [])
    ensures h.proc == Released ==> s == Step(QueryFailed, h, replies, [GetStatus])
    ensures h.proc == Live ==>
      s.value == Next(replies) && s.rest == Rest(replies) && s.calls == [GetStatus]
    ensures s.h == h.(exitCode := s.h.exitCode)
    ensures s.h.exitCode != h.exitCode ==> ReportsExit(s.value)
    ensures ReportsExit(s.value) ==> s.h.exitCode == Some(s.value.exitcode)
  {
    match h.proc
    case NoProcess => Step(QueryFailed, h, replies, [])
    case Released => Step(QueryFailed, h, replies, [GetStatus])
    case Live =>
      var reply := Next(replies);
      var code := if ReportsExit(reply) then Some(reply.exitcode) else h.exitCode;
      Step(reply, h.(exitCode := code), Rest(replies), [GetStatus])
  }

  /** isRunning(): false without a handle or when the query fails, else the reported flag. */
  function IsRunning(h: Handle, replies: seq<StatusReply>): (s: Step<bool>)
    ensures s.value <==> h.proc == Live && ReportsRunning(Next(replies))
    ensures h.proc == NoProcess ==> s == Step(false, h, replies, [])
    ensures h.proc != NoProcess ==> s.h == QueryStatus(h, replies).h && s.rest == QueryStatus(h, replies).rest
    ensures h.proc != NoProcess ==> s.calls == [GetStatus]
    ensures h.proc != Live ==> s.h == h && s.rest == replies
    ensures s.h == h.(exitCode := s.h.exitCode)
    ensures s.value ==> s.h == h
  {
    if h.proc == NoProcess then Step(false, h, replies, [])
    else
      var st := QueryStatus(h, replies);
      Step(ReportsRunning(st.value), st.h, st.rest, st.calls)
  }

  /** getId(): the reported pid, or nothing when there is no handle or the query fails. */
  function GetId(h: Handle, replies: seq<StatusReply>): (s: Step<Option<int>>)
    ensures s.value.Some? <==> h.proc == Live && Next(replies).Status?
    ensures s.value.Some? ==> s.value.value == Next(replies).pid
    ensures s.h == QueryStatus(h, replies).h && s.rest == QueryStatus(h, replies).rest
    ensures s.calls == QueryStatus(h, replies).calls
  {
    var st := QueryStatus(h, replies);
    Step(if st.value.Status? then Some(st.value.pid) else None, st.h, st.rest, st.calls)
  }

  /** assertIsOpen(): throws once the handle is `false`. */
  function AssertIsOpen(h: Handle, replies: seq<StatusReply>): (s: Step<Result<(), Error>>)
    ensures s.value.Err? <==> h.proc == NoProcess
    ensures s.value.Err? ==> s.value.error == HasExited(None)
    ensures s.h == h && s.rest == replies && s.calls == []
  {
    if h.proc == NoProcess then
      var id := GetId(h, replies);
      Step(Err(HasExited(id.value)), id.h, id.rest, id.calls)
    else Step(Ok(()), h, replies, [])
  }

  /** assertIsNotOpen(): throws while the handle field is not `false`. */
  function AssertIsNotOpen(h: Handle, replies: seq<StatusReply>): (s: Step<Result<(), Error>>)
    ensures s.value.Err? <==> h.proc != NoProcess
    ensures s.value.Err? ==> s.value.error == StillOpen(GetId(h, replies).value)
    ensures s.value.Ok? ==> s.h == h && s.rest == replies && s.calls == []
  {
    if h.proc != NoProcess then
      var id := GetId(h, replies);
      Step(Err(StillOpen(id.value)), id.h, id.rest, id.calls)
    else Step(Ok(()), h, replies, [])
  }

  /** assertIsRunning(): throws unless a status query reports the process running. */
  function AssertIsRunning(h: Handle, replies: seq<StatusReply>): (s: Step<Result<(), Error>>)
    ensures s.value.Ok? <==> h.proc == Live && ReportsRunning(Next(replies))
    ensures s.value.Err? ==> s.value.error.NoLongerRunning?
    ensures s.value.Ok? ==> s.h == h && s.calls == [GetStatus]
    ensures s.h.proc == h.proc
  {
    var r := IsRunning(h, replies);
    if !r.value then
      var id := GetId(r.h, r.rest);
      Step(Err(NoLongerRunning(id.value)), id.h, id.rest, r.calls + id.calls)
    else Step(Ok(()), r.h, r.rest, r.calls)
  }

  /** assertIsNotRunning(): throws when a status query reports the process running. */
  function AssertIsNotRunning(h: Handle, replies: seq<StatusReply>): (s: Step<Result<(), Error>>)
    ensures s.value.Err? <==> h.proc == Live && ReportsRunning(Next(replies))
    ensures s.value.Err? ==> s.value.error.StillRunning?
    ensures s.value.Ok? ==> s.h == IsRunning(h, replies).h
    ensures s.h.proc == h.proc
  {
    var r := IsRunning(h, replies);
    if r.value then
      var id := GetId(r.h, r.rest);
      Step(Err(StillRunning(id.value)), id.h, id.rest, r.calls + id.calls)
    else Step(Ok(()), r.h, r.rest, r.calls)
  }

  /** The outcome of a stream getter; the getters never consult the OS. */
  datatype Got = Got(out: Result<Stream, Error>, h: Handle)

  /** getInputStream/getOutputStream/getErrorStream: require an open handle, then return the
      wrapper for `p`, creating it on first use. */
  function GetStream(h: Handle, p: Pipe): (g: Got)
    ensures g.out.Err? <==> h.proc == NoProcess
    ensures g.out.Err? ==> g.out.error == HasExited(None) && g.h == h
    ensures g.out.Ok? ==> g.out.value.pipe == p
    ensures g.out.Ok? ==> Find(g.h.streams, p) == Some(g.out.value)
    ensures Find(h.streams, p).Some? ==> g.h == h
    ensures g.out.Ok? && Find(h.streams, p).None? ==>
      && g.out.value.open
      && g.out.value.kind == KindOf(p)
      && g.out.value.id == h.nextId
      && g.h == h.(streams := h.streams + [g.out.value], nextId := h.nextId + 1)
    ensures forall q :: q != p ==> Find(g.h.streams, q) == Find(h.streams, q)
    ensures g.h.proc == h.proc && g.h.pipes == h.pipes && g.h.exitCode == h.exitCode
  {
    var guard := AssertIsOpen(h, []);
    if guard.value.Err? then Got(Err(guard.value.error), h)
    else match Find(h.streams, p)
      case Some(st) => Got(Ok(st), h)
      case None =>
        var st := Stream(h.nextId, p, KindOf(p), true);
        FindAppend(h.streams, st);
        Got(Ok(st), h.(streams := h.streams + [st], nextId := h.nextId + 1))
  }

  /** Looking a pipe up after appending a wrapper finds the old one, or else the new one. */
  lemma {:induction false} FindAppend(streams: seq<Stream>, st: Stream)
    ensures forall q :: Find(streams + [st], q) ==
                        (if Find(streams, q).Some? then Find(streams, q) else if st.pipe == q then Some(st) else None)
  {
    if |streams| > 0 {
      assert (streams + [st])[1..] == streams[1..] + [st];
      FindAppend(streams[1..], st);
    }
  }

  /** getExitCode(): throws while running, otherwise the stored code (possibly none). */
  function GetExitCode(h: Handle, replies: seq<StatusReply>): (s: Step<Result<Option<int>, Error>>)
    ensures s.value.Err? <==> h.proc == Live && ReportsRunning(Next(replies))
    ensures s.value.Err? ==> s.value.error.StillRunning?
    ensures s.value.Ok? ==> s.value.value == s.h.exitCode
    ensures s.value.Ok? && h.proc == Live && ReportsExit(Next(replies)) ==>
      s.value.value == Some(Next(replies).exitcode)
    ensures s.value.Ok? && !(h.proc == Live && ReportsExit(Next(replies))) ==> s.value.value == h.exitCode
    ensures h.proc == NoProcess ==> s == Step(Ok(h.exitCode), h, replies, [])
  {
    var guard := AssertIsNotRunning(h, replies);
    if guard.value.Err? then Step(Err(guard.value.error), guard.h, guard.rest, guard.calls)
    else Step(Ok(guard.h.exitCode), guard.h, guard.rest, guard.calls)
  }

  /** terminate(): a no-op unless running; otherwise proc_terminate with SIGTERM, throwing
      when the OS call (its result is `delivered`) fails. */
  function Terminate(h: Handle, replies: seq<StatusReply>, delivered: bool): (s: Step<Result<(), Error>>)
    ensures !IsRunning(h, replies).value ==>
      s == Step(Ok(()), IsRunning(h, replies).h, IsRunning(h, replies).rest, IsRunning(h, replies).calls)
    ensures IsRunning(h, replies).value ==> |s.calls| >= 2 && s.calls[1] == Signal(SigTerm)
    ensures IsRunning(h, replies).value && delivered ==>
      s == Step(Ok(()), h, Rest(replies), [GetStatus, Signal(SigTerm)])
    ensures IsRunning(h, replies).value && !delivered ==>
      && s.calls == [GetStatus, Signal(SigTerm), GetStatus]
      && s.h == QueryStatus(h, Rest(replies)).h
      && s.rest == Rest(Rest(replies))
    ensures s.value.Err? <==> IsRunning(h, replies).value && !delivered
    ensures s.value.Err? ==> s.value.error.UnableToTerminate?
    ensures s.h.proc == h.proc && s.h.pipes == h.pipes && s.h.streams == h.streams
  {
    var r := IsRunning(h, replies);
    if !r.value then Step(Ok(()), r.h, r.rest, r.calls)
    else if delivered then Step(Ok(()), r.h, r.rest, r.calls + [Signal(SigTerm)])
    else
      var id := GetId(r.h, r.rest);
      Step(Err(UnableToTerminate(id.value)), id.h, id.rest, r.calls + [Signal(SigTerm)] + id.calls)
  }

  /** kill(): as terminate(), but asks for SIGKILL. */
  function Kill(h: Handle, replies: seq<StatusReply>, delivered: bool): (s: Step<Result<(), Error>>)
    ensures !IsRunning(h, replies).value ==>
      s == Step(Ok(()), IsRunning(h, replies).h, IsRunning(h, replies).rest, IsRunning(h, replies).calls)
    ensures IsRunning(h, replies).value ==> |s.calls| >= 2 && s.calls[1] == Signal(SigKill)
    ensures IsRunning(h, replies).value && delivered ==>
      s == Step(Ok(()), h, Rest(replies), [GetStatus, Signal(SigKill)])
    ensures IsRunning(h, replies).value && !delivered ==>
      && s.calls == [GetStatus, Signal(SigKill), GetStatus]
      && s.h == QueryStatus(h, Rest(replies)).h
      && s.rest == Rest(Rest(replies))
    ensures s.value.Err? <==> IsRunning(h, replies).value && !delivered
    ensures s.value.Err? ==> s.value.error.UnableToKill?
    ensures s.h.proc == h.proc && s.h.pipes == h.pipes && s.h.streams == h.streams
  {
    var r := IsRunning(h, replies);
    if !r.value then Step(Ok(()), r.h, r.rest, r.calls)
    else if delivered then Step(Ok(()), r.h, r.rest, r.calls + [Signal(SigKill)])
    else
      var id := GetId(r.h, r.rest);
      Step(Err(UnableToKill(id.value)), id.h, id.rest, r.calls + [Signal(SigKill)] + id.calls)
  }

  /** The first loop of destroy(): close every wrapper that is not closed yet. */
  function CloseStreams(streams: seq<Stream>): (r: (seq<Stream>, seq<OsCall>))
    ensures |r.0| == |streams|
    ensures forall i :: 0 <= i < |streams| ==> r.0[i] == streams[i].(open := false)
    ensures forall i :: 0 <= i < |r.1| ==> r.1[i].CloseStream?
    ensures forall i :: 0 <= i < |streams| && streams[i].open ==> CloseStream(streams[i].pipe) in r.1
    ensures forall k :: 0 <= k < |r.1| ==>
      exists i :: 0 <= i < |streams| && streams[i].open && r.1[k] == CloseStream(streams[i].pipe)
    ensures |r.1| == OpenCount(streams)
    ensures (forall i :: 0 <= i < |streams| ==> !streams[i].open) ==> r.1 == []
  {
    if |streams| == 0 then ([], [])
    else
      var tail := CloseStreams(streams[1..]);
      var first := streams[0];
      ([first.(open := false)] + tail.0, (if first.open then [CloseStream(first.pipe)] else []) + tail.1)
  }

  /** Number of wrappers not closed yet. */
  function OpenCount(streams: seq<Stream>): nat {
    if |streams| == 0 then 0 else (if streams[0].open then 1 else 0) + OpenCount(streams[1..])
  }

  /** The second loop of destroy(): fclose every pipe entry that is still a resource,
      visiting the pipes in `order`. */
  function ClosePipes(pipes: map<Pipe, Endpoint>, order: seq<Pipe>): (r: (map<Pipe, Endpoint>, seq<OsCall>))
    requires forall i, j :: 0 <= i < j < |order| ==> order[i] != order[j]
    ensures forall i, j :: 0 <= i < j < |r.1| ==> r.1[i] != r.1[j]
    ensures r.0.Keys == pipes.Keys
    ensures forall p :: p in pipes && p in order ==> r.0[p] == pipes[p].(open := false)
    ensures forall p :: p in pipes && p !in order ==> r.0[p] == pipes[p]
    ensures forall i :: 0 <= i < |r.1| ==> r.1[i].ClosePipe?
    ensures forall p :: p in pipes && p in order && pipes[p].open ==> ClosePipe(p) in r.1
    ensures forall k :: 0 <= k < |r.1| ==> r.1[k].pipe in pipes && r.1[k].pipe in order && pipes[r.1[k].pipe].open
    ensures (forall p :: p in pipes ==> !pipes[p].open) ==> r.1 == []
  {
    if |order| == 0 then (pipes, [])
    else
      var p := order[0];
      var closing := p in pipes && pipes[p].open;
      var here := if p in pipes then pipes[p := pipes[p].(open := false)] else pipes;
      var tail := ClosePipes(here, order[1..]);
      (tail.0, (if closing then [ClosePipe(p)] else []) + tail.1)
  }

  /** The two closing loops of destroy(), in order. */
  datatype Closed = Closed(h: Handle, streamCalls: seq<OsCall>, pipeCalls: seq<OsCall>)

  function CloseAll(h: Handle): (c: Closed)
    ensures c.h == h.(streams := c.h.streams, pipes := c.h.pipes)
    ensures |c.h.streams| == |h.streams|
    ensures forall i :: 0 <= i < |h.streams| ==> c.h.streams[i] == h.streams[i].(open := false)
    ensures c.h.pipes.Keys == h.pipes.Keys
    ensures forall p :: p in h.pipes ==> c.h.pipes[p] == h.pipes[p].(open := false)
    ensures forall i :: 0 <= i < |c.streamCalls| ==> c.streamCalls[i].CloseStream?
    ensures forall i :: 0 <= i < |c.pipeCalls| ==> c.pipeCalls[i].ClosePipe?
    ensures forall i :: 0 <= i < |h.streams| && h.streams[i].open ==> CloseStream(h.streams[i].pipe) in c.streamCalls
    ensures forall p :: p in h.pipes && h.pipes[p].open ==> ClosePipe(p) in c.pipeCalls
    ensures (forall i :: 0 <= i < |h.streams| ==> !h.streams[i].open) ==> c.streamCalls == []
    ensures (forall p :: p in h.pipes ==> !h.pipes[p].open) ==> c.pipeCalls == []
  {
    var streams := CloseStreams(h.streams);
    PipeOrderComplete();
    var pipes := ClosePipes(h.pipes, PipeOrder);
    Closed(h.(streams := streams.0, pipes := pipes.0), streams.1, pipes.1)
  }

  /** The first loop closes only what was open, one close per open wrapper. */
  lemma CloseAllStreamCalls(h: Handle)
    ensures var calls := CloseAll(h).streamCalls;
      && |calls| == OpenCount(h.streams)
      && forall k :: 0 <= k < |calls| ==>
           exists i :: 0 <= i < |h.streams| && h.streams[i].open && calls[k] == CloseStream(h.streams[i].pipe)
  {
    assert CloseAll(h).streamCalls == CloseStreams(h.streams).1;
  }

  /** The second loop fcloses each pipe at most once, and only while it was open. */
  lemma CloseAllPipeCalls(h: Handle)
    ensures var calls := CloseAll(h).pipeCalls;
      && (forall k :: 0 <= k < |calls| ==> calls[k].pipe in h.pipes && h.pipes[calls[k].pipe].open)
      && (forall i, j :: 0 <= i < j < |calls| ==> calls[i] != calls[j])
  {
    PipeOrderComplete();
    assert CloseAll(h).pipeCalls == ClosePipes(h.pipes, PipeOrder).1;
  }

  /** All wrapper closes come before all pipe closes, which come before the proc_close. */
  predicate ReleaseOrdered(calls: seq<OsCall>) {
    forall i, j :: 0 <= i < j < |calls| ==>
      && (calls[i].ClosePipe? ==> !calls[j].CloseStream?)
      && (calls[i].CloseProcess? ==> !calls[j].CloseStream? && !calls[j].ClosePipe?)
  }

  /** Wrapper closes, then pipe closes, then calls that close neither, are release-ordered. */
  lemma ReleaseOrderedParts(streamCalls: seq<OsCall>, pipeCalls: seq<OsCall>, tail: seq<OsCall>)
    requires forall i :: 0 <= i < |streamCalls| ==> streamCalls[i].CloseStream?
    requires forall i :: 0 <= i < |pipeCalls| ==> pipeCalls[i].ClosePipe?
    requires forall i :: 0 <= i < |tail| ==> !tail[i].CloseStream? && !tail[i].ClosePipe?
    ensures ReleaseOrdered(streamCalls + pipeCalls + tail)
  {
    var calls := streamCalls + pipeCalls + tail;
    forall i | 0 <= i < |calls|
      ensures calls[i].CloseStream? ==> i < |streamCalls|
      ensures calls[i].ClosePipe? ==> |streamCalls| <= i < |streamCalls| + |pipeCalls|
      ensures calls[i].CloseProcess? ==> i >= |streamCalls| + |pipeCalls|
    {
      if i < |streamCalls| {
        assert calls[i] == streamCalls[i];
      } else if i < |streamCalls| + |pipeCalls| {
        assert calls[i] == pipeCalls[i - |streamCalls|];
      } else {
        assert calls[i] == tail[i - |streamCalls| - |pipeCalls|];
      }
    }
  }

  /** What proc_close returns: the OS's answer `closeCode` on a live process resource, and
      no integer at all on `false` or on an already released resource. */
  function CloseResult(proc: Proc, closeCode: int): Option<int> {
    if proc == Live then Some(closeCode) else None
  }

  /** The rest of destroy() after its two closing loops, on the object `closed` they left:
      query the status, proc_close, then throw when the process looked running and
      proc_close answered -1 -- before the reset; otherwise adopt proc_close's code if
      none is stored and it is not -1, and reset the handle, the pipes and the wrappers. */
  function Reap(closed: Handle, replies: seq<StatusReply>, closeCode: int): (s: Step<Result<(), Error>>)
    ensures s.value.Err? <==> closed.proc == Live && ReportsRunning(Next(replies)) && closeCode == UnknownExitCode
    ensures s.value.Err? ==>
      && s.value.error == UnableToTerminate(None)
      && s.h == closed.(proc := Released)
      && s.calls == [GetStatus, CloseProcess(Live), GetStatus]
    ensures s.value.Ok? ==>
      && s.h.proc == NoProcess && s.h.pipes == map[] && s.h.streams == [] && s.h.nextId == closed.nextId
      && s.calls == IsRunning(closed, replies).calls + [CloseProcess(closed.proc)]
    ensures var seen := QueryStatus(closed, replies).h.exitCode;
      && (seen.Some? ==> s.h.exitCode == seen)
      && (s.value.Ok? && seen.None? && closed.proc == Live && closeCode != UnknownExitCode ==>
            s.h.exitCode == Some(closeCode))
      && (seen.None? && s.h.exitCode.Some? ==>
            closed.proc == Live && closeCode != UnknownExitCode && s.h.exitCode == Some(closeCode))
    ensures s.rest == IsRunning(closed, replies).rest
  {
    var r := IsRunning(closed, replies);
    var reaped := CloseResult(closed.proc, closeCode);
    var calls := r.calls + [CloseProcess(closed.proc)];
    if r.value && reaped == Some(UnknownExitCode) then
      var id := GetId(r.h.(proc := Released), r.rest);
      Step(Err(UnableToTerminate(id.value)), id.h, r.rest, calls + id.calls)
    else
      var code :=
        if r.h.exitCode.None? && reaped.Some? && reaped.value != UnknownExitCode
        then reaped
        else r.h.exitCode;
      Step(Ok(()), Handle(NoProcess, map[], [], code, closed.nextId), r.rest, calls)
  }

  /** The private destroy(): close the wrappers, then the pipes, then reap the process. */
  function Destroy(h: Handle, replies: seq<StatusReply>, closeCode: int): (s: Step<Result<(), Error>>)
    ensures s.value.Err? <==> h.proc == Live && ReportsRunning(Next(replies)) && closeCode == UnknownExitCode
    ensures s.value.Err? ==> s.value.error.UnableToTerminate?
    ensures s.value.Ok? ==> s.h.proc == NoProcess && s.h.pipes == map[] && s.h.streams == []
    ensures s.value.Err? ==> s.h == CloseAll(h).h.(proc := Released)
    ensures s.h.nextId == h.nextId
  {
    var closed := CloseAll(h);
    After(closed.streamCalls + closed.pipeCalls, Reap(closed.h, replies, closeCode))
  }

  /** The tail of destroy() after the closing loops closes neither a wrapper nor a pipe,
      and it does call proc_close on the handle it holds. */
  lemma ReapCalls(closed: Handle, replies: seq<StatusReply>, closeCode: int)
    ensures var calls := Reap(closed, replies, closeCode).calls;
      && CloseProcess(closed.proc) in calls
      && forall i :: 0 <= i < |calls| ==> !calls[i].CloseStream? && !calls[i].ClosePipe?
  {
    var s := Reap(closed, replies, closeCode);
    if s.value.Err? {
      assert s.calls[1] == CloseProcess(closed.proc);
    } else {
      assert s.calls[|s.calls| - 1] == CloseProcess(closed.proc);
    }
  }

  /** destroy() closes every open wrapper, then every open pipe, then the process handle,
      in that order. */
  lemma DestroyReleaseOrder(h: Handle, replies: seq<StatusReply>, closeCode: int)
    ensures var s := Destroy(h, replies, closeCode);
      && CloseProcess(h.proc) in s.calls
      && ReleaseOrdered(s.calls)
      && (forall i :: 0 <= i < |h.streams| && h.streams[i].open ==> CloseStream(h.streams[i].pipe) in s.calls)
      && (forall p :: p in h.pipes && h.pipes[p].open ==> ClosePipe(p) in s.calls)
  {
    var closed := CloseAll(h);
    var reap := Reap(closed.h, replies, closeCode);
    ReapCalls(closed.h, replies, closeCode);
    ReleaseOrderedParts(closed.streamCalls, closed.pipeCalls, reap.calls);
    var calls := closed.streamCalls + closed.pipeCalls + reap.calls;
    assert Destroy(h, replies, closeCode).calls == calls;
    assert forall c :: c in closed.streamCalls ==> c in calls;
    assert forall c :: c in closed.pipeCalls ==> c in calls;
    assert forall c :: c in reap.calls ==> c in calls;
  }

  /** destroy() adopts proc_close's code only when no code is stored after its status
      reading and the code is not -1; a stored code is never replaced. */
  lemma DestroyExitCode(h: Handle, replies: seq<StatusReply>, closeCode: int)
    ensures var s := Destroy(h, replies, closeCode);
      var seen := QueryStatus(h, replies).h.exitCode;
      && (seen.Some? ==> s.h.exitCode == seen)
      && (s.value.Ok? && seen.None? && h.proc == Live && closeCode != UnknownExitCode ==>
            s.h.exitCode == Some(closeCode))
      && (seen.None? && s.h.exitCode.Some? ==>
            h.proc == Live && closeCode != UnknownExitCode && s.h.exitCode == Some(closeCode))
  {
    var closed := CloseAll(h).h;
    assert QueryStatus(closed, replies).h.exitCode == QueryStatus(h, replies).h.exitCode;
  }

  /** The clock a timed wait reads: the start reading and the reading taken before each
      round of the loop, in integer microseconds. Readings past the last are taken to lie
      beyond the deadline. */
  datatype Clock = Clock(start: int, ticks: seq<int>)

  /** Number of loop rounds whose clock check falls before the deadline. */
  function Admitted(start: int, timeout: int, ticks: seq<int>): (n: nat)
    ensures n <= |ticks|
    ensures forall i :: 0 <= i < n ==> ticks[i] - start < timeout
    ensures n < |ticks| ==> ticks[n] - start >= timeout
  {
    if |ticks| == 0 || ticks[0] - start >= timeout then 0
    else 1 + Admitted(start, timeout, ticks[1..])
  }

  /** The first `n` status answers all report a running process. */
  predicate AllRunning(replies: seq<StatusReply>, n: nat) {
    n <= |replies| && forall k :: 0 <= k < n ==> ReportsRunning(replies[k])
  }

  /** The polling loop of a timed wait(): each admitted round queries the status and
      destroys (ending the loop) as soon as the process is not seen running. */
  function Poll(h: Handle, replies: seq<StatusReply>, timeout: int, start: int, ticks: seq<int>, closeCode: int)
    : (s: Step<Result<(), Error>>)
    requires h.proc == Live
    ensures AllRunning(replies, Admitted(start, timeout, ticks)) ==>
      && s.value == Ok(())
      && s.h == h
      && s.rest == replies[Admitted(start, timeout, ticks)..]
      && |s.calls| == Admitted(start, timeout, ticks)
      && (forall i :: 0 <= i < |s.calls| ==> s.calls[i] == GetStatus)
    ensures !AllRunning(replies, Admitted(start, timeout, ticks)) ==>
      s.h.proc != Live && CloseProcess(Live) in s.calls
    ensures s.value.Err? ==> s.value.error.UnableToTerminate?
    ensures s.value.Err? ==> closeCode == UnknownExitCode && s.h.proc == Released
    ensures s.value.Ok? && !AllRunning(replies, Admitted(start, timeout, ticks)) ==>
      s.h.proc == NoProcess && s.h.pipes == map[] && s.h.streams == []
    decreases |ticks|
  {
    if |ticks| == 0 || ticks[0] - start >= timeout then Step(Ok(()), h, replies, [])
    else
      var r := IsRunning(h, replies);
      if !r.value then After(r.calls, Destroy(r.h, r.rest, closeCode))
      else
        AllRunningStep(replies, Admitted(start, timeout, ticks[1..]));
        After(r.calls, Poll(r.h, r.rest, timeout, start, ticks[1..], closeCode))
  }

  lemma AllRunningStep(replies: seq<StatusReply>, n: nat)
    requires ReportsRunning(Next(replies))
    ensures AllRunning(replies, n + 1) <==> AllRunning(Rest(replies), n)
    ensures AllRunning(replies, n + 1) ==> replies[n + 1..] == Rest(replies)[n..]
  {
    if AllRunning(Rest(replies), n) {
      forall k | 0 <= k < n + 1 ensures ReportsRunning(replies[k]) {
        if k > 0 { assert replies[k] == Rest(replies)[k - 1]; }
      }
    }
    if AllRunning(replies, n + 1) {
      forall k | 0 <= k < n ensures ReportsRunning(Rest(replies)[k]) {
        assert Rest(replies)[k] == replies[k + 1];
      }
    }
  }

  /** The sleep between two polls, in microseconds: the timeout itself when it is under a
      second, a tenth of a second otherwise. */
  function PollPeriod(timeout: int): (period: int)
    ensures 0 < timeout ==> 0 < period <= 100_000 || period == timeout
    ensures 0 < timeout ==> period <= timeout
    ensures timeout >= 1_000_000 ==> period == 100_000
  {
    if timeout < 1_000_000 then timeout else 100_000
  }

  /** wait(timeout): release at once when not running or without a timeout; otherwise poll
      until the process is seen not running (then release) or the deadline passes. */
  function Wait(h: Handle, replies: seq<StatusReply>, timeout: Option<int>, clock: Clock, closeCode: int)
    : (s: Step<Result<(), Error>>)
    ensures !IsRunning(h, replies).value || timeout.None? ==>
      s.h.proc != Live && CloseProcess(h.proc) in s.calls
    ensures s.value.Err? ==> s.value.error.UnableToTerminate?
    ensures !IsRunning(h, replies).value || timeout.None? ==>
      && (s.value.Err? <==> h.proc == Live && ReportsRunning(Next(IsRunning(h, replies).rest))
                            && closeCode == UnknownExitCode)
      && (s.value.Ok? ==> s.h.proc == NoProcess && s.h.pipes == map[] && s.h.streams == [])
    ensures IsRunning(h, replies).value && timeout.Some? ==>
      var n := Admitted(clock.start, timeout.value, clock.ticks);
      && (AllRunning(Rest(replies), n) ==> s.value.Ok? && s.h == h && CloseProcess(Live) !in s.calls)
      && (!AllRunning(Rest(replies), n) ==> s.h.proc != Live && CloseProcess(Live) in s.calls)
      && (s.value.Ok? && !AllRunning(Rest(replies), n) ==>
            s.h.proc == NoProcess && s.h.pipes == map[] && s.h.streams == [])
    ensures s.value.Err? ==> closeCode == UnknownExitCode && s.h.proc == Released
  {
    var r := IsRunning(h, replies);
    if !r.value || timeout.None? then After(r.calls, Destroy(r.h, r.rest, closeCode))
    else After(r.calls, Poll(r.h, r.rest, timeout.value, clock.start, clock.ticks, closeCode))
  }

  /** __destruct(): only when a handle is held, kill a running process, then destroy. */
  function Destruct(h: Handle, replies: seq<StatusReply>, delivered: bool, closeCode: int)
    : (s: Step<Result<(), Error>>)
    ensures h.proc == NoProcess ==> s == Step(Ok(()), h, replies, [])
    ensures h.proc != NoProcess ==> |s.calls| > 0 && s.calls[0] == GetStatus
    ensures h.proc != NoProcess && !IsRunning(h, replies).value ==> CloseProcess(h.proc) in s.calls
    ensures IsRunning(h, replies).value && ReportsRunning(Next(Rest(replies))) ==>
      Signal(SigKill) in s.calls
    ensures h.proc != NoProcess && !(IsRunning(h, replies).value && ReportsRunning(Next(Rest(replies))) && !delivered) ==>
      CloseProcess(h.proc) in s.calls
    ensures s.value.Ok? ==> s.h.proc == NoProcess
    ensures s.value.Err? ==>
      h.proc == Live && (s.value.error.UnableToKill? || (s.value.error.UnableToTerminate? && closeCode == UnknownExitCode))
    ensures IsRunning(h, replies).value && ReportsRunning(Next(Rest(replies))) && !delivered ==>
      s.value.Err? && s.value.error.UnableToKill? && s.h.proc == Live
  {
    if h.proc == NoProcess then Step(Ok(()), h, replies, [])
    else
      var r := IsRunning(h, replies);
      if r.value then
        var k := Kill(r.h, r.rest, delivered);
        if k.value.Err? then After(r.calls, k)
        else
          DestroyReleaseOrder(k.h, k.rest, closeCode);
          After(r.calls + k.calls, Destroy(k.h, k.rest, closeCode))
      else
        DestroyReleaseOrder(r.h, r.rest, closeCode);
        After(r.calls, Destroy(r.h, r.rest, closeCode))
  }
}

=== FILE: process_input_stream.dfy ===
/** ProcessInputStream: the Windows stdout/stderr reader. It reads a growing temporary file
    through a rewind-before-read decorator, and reports end-of-data only once the file is
    at its end and the owning process is no longer running.

    The decorator and the raw stream are library code outside this model; they are the
    type parameter `S` and the functions `atEnd` and `readVia`, which say what the
    decorator's end() and read() return. The owning Process is the handle passed in. */
module ProcessInput {
  import opened ProcessState
  import opened Process

  /** RewindBeforeReadInputStream around a raw stream. */
  datatype RewindBeforeRead<S> = RewindBeforeRead(inner: S)

  /** The raw stream is held only inside the decorator; there is no buffer of its own. */
  datatype ProcessInputStream<S> = ProcessInputStream(stream: RewindBeforeRead<S>)

  /** The constructor installs the decorator around the raw stream, once. */
  function Construct<S>(raw: S): (s: ProcessInputStream<S>)
    ensures s.stream == RewindBeforeRead(raw)
  {
    ProcessInputStream(RewindBeforeRead(raw))
  }

  /** end(): the decorator is at its end and the owner is not running. The owner is asked
      afresh on every call, and only when the decorator is at its end. */
  function End<S>(s: ProcessInputStream<S>, atEnd: RewindBeforeRead<S> -> bool, owner: Handle, replies: seq<StatusReply>)
    : (r: Step<bool>)
    ensures r.value <==> atEnd(s.stream) && !IsRunning(owner, replies).value
    ensures !atEnd(s.stream) ==> r == Step(false, owner, replies, [])
    ensures IsRunning(owner, replies).value ==> !r.value
    ensures atEnd(s.stream) ==>
      r.h == IsRunning(owner, replies).h && r.rest == IsRunning(owner, replies).rest && r.calls == IsRunning(owner, replies).calls
  {
    if !atEnd(s.stream) then Step(false, owner, replies, [])
    else
      var running := IsRunning(owner, replies);
      Step(!running.value, running.h, running.rest, running.calls)
  }

  /** read(count): whatever the decorator's read returns, and the decorator's new state. */
  function Read<S>(s: ProcessInputStream<S>, count: nat, readVia: (RewindBeforeRead<S>, nat) -> (seq<bv8>, RewindBeforeRead<S>))
    : (r: (seq<bv8>, ProcessInputStream<S>))
    ensures r.0 == readVia(s.stream, count).0
    ensures r.1 == ProcessInputStream(readVia(s.stream, count).1)
  {
    var (bytes, next) := readVia(s.stream, count);
    (bytes, ProcessInputStream(next))
  }

  /** end() is not cached: on a live owner, two calls in a row each consume one status
      answer, and the second call's result follows the second answer alone. */
  lemma EndAsksEachTime<S>(s: ProcessInputStream<S>, atEnd: RewindBeforeRead<S> -> bool, owner: Handle, replies: seq<StatusReply>)
    requires owner.proc == Live && atEnd(s.stream) && |replies| >= 2
    ensures var first := End(s, atEnd, owner, replies);
      var second := End(s, atEnd, first.h, first.rest);
      && first.value == !ReportsRunning(replies[0])
      && second.value == !ReportsRunning(replies[1])
      && second.rest == replies[2..]
  {
  }
}

=== FILE: process_lemmas.dfy ===
/** Properties of the `Process` state machine that relate several calls: the shape every
    reachable object keeps, memoised getters, what is left after a release, how the
    timed wait's polling is bounded, and three places where the code does less than a
    reader might expect. */
module ProcessLemmas {
  import opened Wrappers
  import opened ProcessState
  import opened Process
  import opened Spawning

  // ---- the reachable shape is kept by every operation ----

  lemma SpawnValid(command: string, options: Options, platform: Platform, launched: bool)
    requires Spawn(command, options, platform, launched).out.Ok?
    ensures Valid(Spawn(command, options, platform, launched).out.value)
  {
  }

  lemma StatusValid(h: Handle, replies: seq<StatusReply>)
    requires Valid(h)
    ensures Valid(QueryStatus(h, replies).h) && Valid(IsRunning(h, replies).h) && Valid(GetId(h, replies).h)
  {
  }

  /** A getter keeps the shape, and the wrapper it returns has the kind its pipe calls for. */
  lemma GetStreamValid(h: Handle, p: Pipe)
    requires Valid(h)
    ensures Valid(GetStream(h, p).h)
    ensures GetStream(h, p).out.Ok? ==> GetStream(h, p).out.value.kind == KindOf(p)
  {
    var g := GetStream(h, p);
    if g.out.Ok? && Find(h.streams, p).None? {
      var s := g.h.streams;
      assert s == h.streams + [g.out.value];
      forall i, j | 0 <= i < j < |s|
        ensures s[i].pipe != s[j].pipe && s[i].id < s[j].id
      {
        if j == |s| - 1 {
          assert s[i] == h.streams[i];
        }
      }
    }
  }

  lemma SignalValid(h: Handle, replies: seq<StatusReply>, delivered: bool)
    requires Valid(h)
    ensures Valid(Terminate(h, replies, delivered).h) && Valid(Kill(h, replies, delivered).h)
  {
  }

  /** Closing every wrapper and pipe of a live object and marking its handle released
      keeps the shape. */
  lemma ReleasedValid(h: Handle)
    requires Valid(h) && h.proc == Live
    ensures Valid(CloseAll(h).h.(proc := Released))
  {
    var c := CloseAll(h).h;
    var r := c.(proc := Released);
    assert r.pipes.Keys == {Stdin, Stdout, Stderr};
    assert forall p :: p in r.pipes ==> !r.pipes[p].open;
    assert r.nextId == h.nextId && |r.streams| == |h.streams|;
    forall i, j | 0 <= i < j < |r.streams|
      ensures r.streams[i].pipe != r.streams[j].pipe && r.streams[i].id < r.streams[j].id
    {
      assert r.streams[i] == h.streams[i].(open := false);
      assert r.streams[j] == h.streams[j].(open := false);
    }
    forall i | 0 <= i < |r.streams|
      ensures r.streams[i].id < r.nextId && r.streams[i].kind == KindOf(r.streams[i].pipe)
    {
      assert r.streams[i] == h.streams[i].(open := false);
    }
  }

  lemma DestroyValid(h: Handle, replies: seq<StatusReply>, closeCode: int)
    requires Valid(h)
    ensures Valid(Destroy(h, replies, closeCode).h)
  {
    if Destroy(h, replies, closeCode).value.Err? {
      ReleasedValid(h);
    }
  }

  lemma {:induction false} PollValid(h: Handle, replies: seq<StatusReply>, timeout: int, start: int, ticks: seq<int>, closeCode: int)
    requires h.proc == Live && Valid(h)
    ensures Valid(Poll(h, replies, timeout, start, ticks, closeCode).h)
    decreases |ticks|
  {
    if |ticks| == 0 || ticks[0] - start >= timeout {
    } else {
      var r := IsRunning(h, replies);
      StatusValid(h, replies);
      if !r.value {
        DestroyValid(r.h, r.rest, closeCode);
      } else {
        PollValid(r.h, r.rest, timeout, start, ticks[1..], closeCode);
      }
    }
  }

  lemma WaitValid(h: Handle, replies: seq<StatusReply>, timeout: Option<int>, clock: Clock, closeCode: int)
    requires Valid(h)
    ensures Valid(Wait(h, replies, timeout, clock, closeCode).h)
  {
    var r := IsRunning(h, replies);
    StatusValid(h, replies);
    if !r.value || timeout.None? {
      DestroyValid(r.h, r.rest, closeCode);
    } else {
      PollValid(r.h, r.rest, timeout.value, clock.start, clock.ticks, closeCode);
    }
  }

  lemma DestructValid(h: Handle, replies: seq<StatusReply>, delivered: bool, closeCode: int)
    requires Valid(h)
    ensures Valid(Destruct(h, replies, delivered, closeCode).h)
  {
    if h.proc != NoProcess {
      var r := IsRunning(h, replies);
      StatusValid(h, replies);
      if r.value {
        var k := Kill(r.h, r.rest, delivered);
        SignalValid(r.h, r.rest, delivered);
        if k.value.Ok? {
          DestroyValid(k.h, k.rest, closeCode);
        }
      } else {
        DestroyValid(r.h, r.rest, closeCode);
      }
    }
  }

  // ---- memoised getters ----

  /** A second call of a getter returns the same wrapper object and changes nothing. */
  lemma StreamMemoised(h: Handle, p: Pipe)
    requires GetStream(h, p).out.Ok?
    ensures var first := GetStream(h, p);
      GetStream(first.h, p) == first.(h := first.h)
  {
  }

  // ---- after a release ----

  /** Once destroy completes, no handle remains: nothing is running, there is no id, every
      getter throws, and the exit code reads back unchanged without consulting the OS. */
  lemma ReleasedHandleRejectsUse(h: Handle, replies: seq<StatusReply>, closeCode: int, later: seq<StatusReply>, p: Pipe)
    // exactly the inputs on which destroy completes (see Destroy's first ensures)
    requires !(h.proc == Live && ReportsRunning(Next(replies)) && closeCode == UnknownExitCode)
    ensures var gone := Destroy(h, replies, closeCode).h;
      && !IsRunning(gone, later).value
      && GetId(gone, later).value == None
      && GetStream(gone, p).out == Err(HasExited(None))
      && GetExitCode(gone, later) == Step(Ok(gone.exitCode), gone, later, [])
  {
  }

  /** A handle that got a real exit code from a status reading and was then released reports
      that code for good. */
  lemma ReadingSurvivesRelease(h: Handle, replies: seq<StatusReply>, closeCode: int, later: seq<StatusReply>)
    requires h.proc == Live && ReportsExit(Next(replies))
    ensures Destroy(h, replies, closeCode).value.Ok?
    ensures GetExitCode(Destroy(h, replies, closeCode).h, later).value == Ok(Some(Next(replies).exitcode))
  {
  }

  /** A destroy on an object whose wrappers and pipes are all closed closes neither again. */
  lemma DestroyOnClosed(h: Handle, replies: seq<StatusReply>, closeCode: int)
    requires forall i :: 0 <= i < |h.streams| ==> !h.streams[i].open
    requires forall p :: p in h.pipes ==> !h.pipes[p].open
    ensures var s := Destroy(h, replies, closeCode);
      forall i :: 0 <= i < |s.calls| ==> !s.calls[i].CloseStream? && !s.calls[i].ClosePipe?
  {
    var closed := CloseAll(h);
    assert closed.streamCalls == [] && closed.pipeCalls == [];
    ReapCalls(closed.h, replies, closeCode);
    assert Destroy(h, replies, closeCode).calls == Reap(closed.h, replies, closeCode).calls;
  }

  /** A second destroy never closes a wrapper or a pipe again, whether the first one
      completed or threw. */
  lemma NoDoubleClose(h: Handle, replies: seq<StatusReply>, closeCode: int, later: seq<StatusReply>, closeCode2: int)
    ensures var again := Destroy(Destroy(h, replies, closeCode).h, later, closeCode2);
      forall i :: 0 <= i < |again.calls| ==> !again.calls[i].CloseStream? && !again.calls[i].ClosePipe?
  {
    var first := Destroy(h, replies, closeCode);
    if first.value.Err? {
      var closed := CloseAll(h).h;
      assert first.h.streams == closed.streams && first.h.pipes == closed.pipes;
    }
    DestroyOnClosed(first.h, later, closeCode2);
  }

  // ---- the code as written ----

  /** wait() does not guard a second release: after a completed destroy it calls proc_close
      again, on `false`. */
  lemma WaitReleasesAgain(h: Handle, replies: seq<StatusReply>, closeCode: int,
                          later: seq<StatusReply>, timeout: Option<int>, clock: Clock, closeCode2: int)
    // exactly the inputs on which destroy completes (see Destroy's first ensures)
    requires !(h.proc == Live && ReportsRunning(Next(replies)) && closeCode == UnknownExitCode)
    ensures var gone := Destroy(h, replies, closeCode).h;
      Wait(gone, later, timeout, clock, closeCode2) == Step(Ok(()), gone, later, [CloseProcess(NoProcess)])
  {
  }

  /** The destructor does guard it: after a completed destroy it makes no call at all. */
  lemma DestructGuardsRelease(h: Handle, replies: seq<StatusReply>, closeCode: int,
                              later: seq<StatusReply>, delivered: bool, closeCode2: int)
    // exactly the inputs on which destroy completes (see Destroy's first ensures)
    requires !(h.proc == Live && ReportsRunning(Next(replies)) && closeCode == UnknownExitCode)
    ensures var gone := Destroy(h, replies, closeCode).h;
      Destruct(gone, later, delivered, closeCode2) == Step(Ok(()), gone, later, [])
  {
  }

  /** destroy() on a released handle whose wrappers and pipes are all closed only queries
      the status and calls proc_close, then resets the handle keeping its code. */
  lemma DestroyReleased(h: Handle, replies: seq<StatusReply>, closeCode: int)
    requires h.proc == Released
    requires forall i :: 0 <= i < |h.streams| ==> !h.streams[i].open
    requires forall p :: p in h.pipes ==> !h.pipes[p].open
    ensures Destroy(h, replies, closeCode)
         == Step(Ok(()), Handle(NoProcess, map[], [], h.exitCode, h.nextId), replies, [GetStatus, CloseProcess(Released)])
  {
    var closed := CloseAll(h);
    assert closed.streamCalls == [] && closed.pipeCalls == [];
    var reap := Reap(closed.h, replies, closeCode);
    assert reap.value.Ok? && reap.calls == [GetStatus, CloseProcess(Released)];
    assert reap.h == Handle(NoProcess, map[], [], h.exitCode, h.nextId);
    assert Destroy(h, replies, closeCode) == reap;
  }

  /** A destroy that throws leaves a released handle with every wrapper and pipe closed,
      its code and its wrapper counter unchanged. */
  lemma FailedDestroyLeaves(h: Handle, replies: seq<StatusReply>, closeCode: int)
    requires Destroy(h, replies, closeCode).value.Err?
    ensures var left := Destroy(h, replies, closeCode).h;
      && left.proc == Released && left.exitCode == h.exitCode && left.nextId == h.nextId
      && (forall i :: 0 <= i < |left.streams| ==> !left.streams[i].open)
      && (forall p :: p in left.pipes ==> !left.pipes[p].open)
  {
    assert Destroy(h, replies, closeCode).h == CloseAll(h).h.(proc := Released);
  }

  /** When destroy throws, the handle is left released but not reset; the destructor then
      finishes the reset without closing anything twice and keeps the stored code. */
  lemma DestructAfterFailedDestroy(h: Handle, replies: seq<StatusReply>, closeCode: int,
                                   later: seq<StatusReply>, delivered: bool, closeCode2: int)
    requires Destroy(h, replies, closeCode).value.Err?
    ensures var left := Destroy(h, replies, closeCode).h;
      && left.proc == Released
      && Destruct(left, later, delivered, closeCode2)
         == Step(Ok(()), Handle(NoProcess, map[], [], h.exitCode, h.nextId), later,
                 [GetStatus, GetStatus, CloseProcess(Released)])
  {
    var left := Destroy(h, replies, closeCode).h;
    FailedDestroyLeaves(h, replies, closeCode);
    DestroyReleased(left, later, closeCode2);
    DestructReleased(left, later, delivered, closeCode2);
    assert [GetStatus] + [GetStatus, CloseProcess(Released)] == [GetStatus, GetStatus, CloseProcess(Released)];
  }

  /** On a released handle the destructor's status query fails, so it goes straight to
      destroy with the answers untouched. */
  lemma DestructReleased(h: Handle, replies: seq<StatusReply>, delivered: bool, closeCode: int)
    requires h.proc == Released
    ensures Destruct(h, replies, delivered, closeCode) == After([GetStatus], Destroy(h, replies, closeCode))
  {
    var r := IsRunning(h, replies);
    assert !r.value && r.h == h && r.rest == replies && r.calls == [GetStatus];
  }

  // ---- the timed wait's cadence ----

  /** The loop's clock readings are at least `period` apart and start no earlier than
      the start reading. */
  ghost predicate Spaced(start: int, ticks: seq<int>, period: int) {
    && (|ticks| > 0 ==> start <= ticks[0])
    && forall i :: 0 < i < |ticks| ==> ticks[i - 1] + period <= ticks[i]
  }

  lemma {:induction false} TicksGrow(start: int, ticks: seq<int>, period: int, i: nat)
    requires 0 <= period && Spaced(start, ticks, period) && i < |ticks|
    ensures ticks[i] - start >= i * period
  {
    if i > 0 {
      TicksGrow(start, ticks, period, i - 1);
    }
  }

  /** With readings spaced by wait's sleep, the loop makes fewer than timeout/period + 1
      rounds before the deadline: one every 100 ms for timeouts of a second or more. */
  lemma AdmittedBound(start: int, timeout: int, ticks: seq<int>)
    requires 0 < timeout && Spaced(start, ticks, PollPeriod(timeout))
    ensures var n := Admitted(start, timeout, ticks);
      n == 0 || (n - 1) * PollPeriod(timeout) < timeout
    ensures timeout >= 1_000_000 ==> var n := Admitted(start, timeout, ticks);
      n == 0 || (n - 1) * 100_000 < timeout
  {
    var n := Admitted(start, timeout, ticks);
    if n > 0 {
      TicksGrow(start, ticks, PollPeriod(timeout), n - 1);
    }
  }

  /** A timeout under one second sleeps for the whole timeout, so the loop polls at most once. */
  lemma SubSecondWaitPollsOnce(start: int, timeout: int, ticks: seq<int>)
    requires 0 < timeout < 1_000_000 && Spaced(start, ticks, PollPeriod(timeout))
    ensures Admitted(start, timeout, ticks) <= 1
  {
    if |ticks| > 1 {
      TicksGrow(start, ticks, timeout, 1);
    }
  }
}

=== FILE: process_state.dfy ===
/** The state of one `Process` object and the vocabulary the operating system answers in.

    The PHP class keeps four fields: the proc_open resource (`false` once released), the
    pipe array, the lazily built stream wrappers and the exit code. Here they are one
    immutable record; every operation takes a record and returns a new one. */
module ProcessState {
  import opened Wrappers

  /** The three standard streams, the source's PIPE_STDIN/PIPE_STDOUT/PIPE_STDERR (0, 1, 2). */
  datatype Pipe = Stdin | Stdout | Stderr

  /** The order in which the pipe array is filled, and so the order in which it is closed;
      each pipe appears once. */
  const PipeOrder: seq<Pipe> := [Stdin, Stdout, Stderr]

  lemma PipeOrderComplete()
    ensures forall p: Pipe :: p in PipeOrder
    ensures forall i, j :: 0 <= i < j < |PipeOrder| ==> PipeOrder[i] != PipeOrder[j]
  {
    forall p: Pipe ensures p in PipeOrder {
      match p
      case Stdin => assert PipeOrder[0] == p;
      case Stdout => assert PipeOrder[1] == p;
      case Stderr => assert PipeOrder[2] == p;
    }
  }

  /** Direction of a `pipe` descriptor, as the child sees it. */
  datatype Mode = Read | Write

  /** One entry of a proc_open descriptor spec: `['pipe', mode]`, `['pty']` or a `tmpfile()`. */
  datatype Descriptor = PipeSpec(mode: Mode) | PtySpec | TempFile

  datatype Spec = Spec(stdin: Descriptor, stdout: Descriptor, stderr: Descriptor) {
    function At(p: Pipe): Descriptor {
      match p
      case Stdin => stdin
      case Stdout => stdout
      case Stderr => stderr
    }
  }

  /** The child can read from the descriptor. */
  predicate ChildReads(d: Descriptor) {
    d == PipeSpec(Read) || d == PtySpec
  }

  /** The child can write to the descriptor. */
  predicate ChildWrites(d: Descriptor) {
    d == PipeSpec(Write) || d == PtySpec || d == TempFile
  }

  /** A raw endpoint held in the pipe array; `open` is PHP's `is_resource`. */
  datatype Endpoint = Endpoint(source: Descriptor, open: bool)

  /** Stdin is written by the parent (PhpOutputStream); stdout and stderr are read (PhpInputStream). */
  datatype StreamKind = OutputStream | InputStream

  function KindOf(p: Pipe): StreamKind {
    if p == Stdin then OutputStream else InputStream
  }

  /** A stream wrapper object: `id` is its object identity, `open` is `!isClosed()`. */
  datatype Stream = Stream(id: nat, pipe: Pipe, kind: StreamKind, open: bool)

  /** The `$process` field: `false`, a live process resource, or a resource that
      proc_close has already released but that was never reset to `false`. */
  datatype Proc = NoProcess | Live | Released

  datatype Handle = Handle(
    proc: Proc,
    pipes: map<Pipe, Endpoint>,
    streams: seq<Stream>,        // in creation order, as PHP arrays iterate
    exitCode: Option<int>,
    nextId: nat                  // identity of the next wrapper object to be created
  )

  /** One answer of proc_get_status: `false`, or the `running`, `pid` and `exitcode` entries. */
  datatype StatusReply = QueryFailed | Status(running: bool, pid: int, exitcode: int)

  /** The next status answer the OS gives; once the scripted answers run out, the query fails. */
  function Next(replies: seq<StatusReply>): StatusReply {
    if |replies| == 0 then QueryFailed else replies[0]
  }

  function Rest(replies: seq<StatusReply>): (r: seq<StatusReply>)
    ensures |replies| > 0 ==> |r| == |replies| - 1
  {
    if |replies| == 0 then [] else replies[1..]
  }

  /** The calls the object makes into PHP's process and file functions, in order. */
  datatype OsCall =
    | OpenProcess(command: string, spec: Spec, cwd: Option<string>, env: Option<map<string, string>>)
    | GetStatus
    | Signal(signal: int)
    | CloseStream(pipe: Pipe)
    | ClosePipe(pipe: Pipe)
    | CloseProcess(target: Proc)

  /** The ProcessExceptions the class throws; the id is what the message's getId() returned. */
  datatype Error =
    | PtyUnsupported
    | SpawnFailed
    | HasExited(id: Option<int>)
    | StillOpen(id: Option<int>)
    | NoLongerRunning(id: Option<int>)
    | StillRunning(id: Option<int>)
    | UnableToTerminate(id: Option<int>)
    | UnableToKill(id: Option<int>)
    | InvalidInputRedirect
    | InvalidOutputRedirect
    | InvalidErrorRedirect

  /** The outcome of one call on the object: its value, the object afterwards, the status
      answers not yet consumed, and the calls made into the OS. */
  datatype Step<T> = Step(value: T, h: Handle, rest: seq<StatusReply>, calls: seq<OsCall>)

  /** The first wrapper created for pipe `p`, if any. */
  function Find(streams: seq<Stream>, p: Pipe): (r: Option<Stream>)
    ensures r.Some? ==> r.value in streams && r.value.pipe == p
    ensures r.None? <==> forall i :: 0 <= i < |streams| ==> streams[i].pipe != p
  {
    if |streams| == 0 then None
    else if streams[0].pipe == p then Some(streams[0])
    else Find(streams[1..], p)
  }

  /** The shape every reachable object has. */
  ghost predicate Valid(h: Handle) {
    && (h.proc == NoProcess ==> h.pipes == map[] && h.streams == [])
    && (h.proc != NoProcess ==> h.pipes.Keys == {Stdin, Stdout, Stderr})
    && (h.proc == Released ==> forall p :: p in h.pipes ==> !h.pipes[p].open)
    && (forall i, j :: 0 <= i < j < |h.streams| ==>
          h.streams[i].pipe != h.streams[j].pipe && h.streams[i].id < h.streams[j].id)
    && (forall i :: 0 <= i < |h.streams| ==>
          h.streams[i].id < h.nextId && h.streams[i].kind == KindOf(h.streams[i].pipe))
  }
}

=== FILE: spawning.dfy ===
/** Process::spawn and the constructor: read the options, choose the descriptor spec from
    the platform and the pty flag, and call proc_open (whose success is an oracle input). */
module Spawning {
  import opened Wrappers
  import opened ProcessState

  /** The two platform queries the constructor makes (OS::isWin, OS::isLinux). */
  datatype Platform = Platform(isWin: bool, isLinux: bool)

  /** The `cwd`, `env` and `pty` options after their casts; `None` is "not set". */
  datatype Options = Options(cwd: Option<string>, env: Option<map<string, string>>, pty: Option<bool>)

  /** The pty option is set and true. */
  predicate PtyRequested(options: Option<Options>) {
    options.Some? && options.value.pty == Some(true)
  }

  /** The descriptor spec handed to proc_open: on Windows a stdin pipe and two temporary
      files (reading a proc_open pipe hangs there); elsewhere three ptys when asked for,
      or else pipes r/w/w. */
  function DescriptorSpec(isWin: bool, pty: bool): (spec: Spec)
    ensures ChildReads(spec.stdin)
    ensures ChildWrites(spec.stdout) && ChildWrites(spec.stderr)
    ensures spec.stdout == TempFile <==> isWin
    ensures spec.stderr == TempFile <==> isWin
    ensures spec.stdin == PtySpec <==> !isWin && pty
    ensures spec.stdout == PtySpec <==> !isWin && pty
    ensures spec.stderr == PtySpec <==> !isWin && pty
    ensures spec.stdin == PipeSpec(Read) <==> isWin || !pty
  {
    if isWin then Spec(PipeSpec(Read), TempFile, TempFile)
    else if pty then Spec(PtySpec, PtySpec, PtySpec)
    else Spec(PipeSpec(Read), PipeSpec(Write), PipeSpec(Write))
  }

  /** The constructor's PTY check, applied to whatever options variable it reads. */
  predicate PtyGuard(options: Option<Options>, platform: Platform) {
    PtyRequested(options) && !platform.isLinux
  }

  /** The pipe array after a successful proc_open: every descriptor of the spec, open.
      On Windows the two temporary files are stored into the array by hand. */
  function EndpointsOf(spec: Spec): (pipes: map<Pipe, Endpoint>)
    ensures pipes.Keys == {Stdin, Stdout, Stderr}
    ensures forall p :: p in pipes ==> pipes[p] == Endpoint(spec.At(p), true)
  {
    map[Stdin := Endpoint(spec.stdin, true), Stdout := Endpoint(spec.stdout, true), Stderr := Endpoint(spec.stderr, true)]
  }

  /** The outcome of spawn: the object or the exception, and the calls made. */
  datatype Spawned = Spawned(out: Result<Handle, Error>, calls: seq<OsCall>)

  /** spawn(command, options). The PTY check reads a variable that the constructor never
      assigns (it is not the `options` parameter), so it sees no options at all. */
  function Spawn(command: string, options: Options, platform: Platform, launched: bool): (s: Spawned)
    ensures s.out.Err? <==> !launched
    ensures s.out.Err? ==> s.out.error == SpawnFailed
    ensures s.calls == [OpenProcess(command, DescriptorSpec(platform.isWin, options.pty == Some(true)), options.cwd, options.env)]
    ensures s.out.Ok? ==>
      && s.out.value.proc == Live
      && s.out.value.exitCode == None
      && s.out.value.streams == []
      && s.out.value.pipes.Keys == {Stdin, Stdout, Stderr}
      && (forall p :: p in s.out.value.pipes ==>
            s.out.value.pipes[p] == Endpoint(s.calls[0].spec.At(p), true))
  {
    var unassigned: Option<Options> := None;
    if PtyGuard(unassigned, platform) then Spawned(Err(PtyUnsupported), [])
    else
      var spec := DescriptorSpec(platform.isWin, options.pty == Some(true));
      var call := OpenProcess(command, spec, options.cwd, options.env);
      if !launched then Spawned(Err(SpawnFailed), [call])
      else Spawned(Ok(Handle(Live, EndpointsOf(spec), [], None, 0)), [call])
  }

  /** A pty request on a host that is neither Linux nor Windows is not rejected: proc_open
      is called with three ptys. */
  lemma PtyRequestReachesProcOpen(command: string, options: Options, platform: Platform, launched: bool)
    requires options.pty == Some(true) && !platform.isWin && !platform.isLinux
    ensures Spawn(command, options, platform, launched).out != Err(PtyUnsupported)
    ensures Spawn(command, options, platform, launched).calls[0].spec == Spec(PtySpec, PtySpec, PtySpec)
  {
  }
}

=== FILE: wrappers.dfy ===
/** Option and Result, the two failure-carrying datatypes the model uses in place of
    PHP's `null`/`false` returns and thrown exceptions. */
module Wrappers {

  datatype Option<+T> = None | Some(value: T)

  datatype Result<+T, +E> = Ok(value: T) | Err(error: E)
}
